=== FILE: README.md ===
# Weather SDK core in Dafny

This project models the stateful core of a small Java weather SDK and proves
properties about it. The core has three parts:

- **`WeatherCache`** is a bounded cache of weather data keyed by lower-cased city
  name. It holds at most 10 cities. An entry is valid for 10 minutes. The store is a
  `LinkedHashMap` in access order, so when a new city overflows the cache, the
  least recently accessed city is evicted. An expired entry is removed lazily, when
  a read finds it, but only after a second check under the write lock.
- **`WeatherSDK`** keeps a process-wide registry with one instance per API key
  (`getInstance`). `getWeather` validates the city name, answers from the cache
  when it can, and otherwise fetches, stores and returns. `destroy` unregisters an
  instance and stops its poller.
- **`PollingManager`** is a start/stop state machine around a single-thread
  scheduler. Each polling cycle refreshes every cached city and isolates failures
  per city.

The model is functional. State is held in immutable datatypes, and every
operation is a pure function of the state before it and of explicit inputs:

- clock readings, as `nat` parameters;
- the outcome of fetching and parsing, as a function from city name to value or
  error;
- the iteration order of a key snapshot, as a sequence that enumerates the set.

The files are:

- `results.dfy`: `Option` (Java's `null`) and `Result` (a value or a thrown
  exception).
- `java_strings.dfy`: the `toLowerCase` and `trim` behaviour the code relies on.
- `weather_cache.dfy`: the cache. The access-ordered map is a sequence of slots,
  least recently accessed first. On top of it sit the cache operations and their
  properties.
- `weather_api.dfy`: the error kinds of the HTTP client and the abstract fetch.
- `polling_manager.dfy`: the poller state machine and one refresh cycle.
- `weather_sdk.dfy`: instances, the registry, `getInstance`, `getWeather`,
  `destroy`, and one scheduled cycle seen from an instance.

## Model

Source paths are relative to the repository root.

| member | source | states |
|---|---|---|
| WeatherCache.StorePut | src/main/java/com/muruz/weather/WeatherCache.java:19-24 | The access-ordered map with its eviction hook `RemoveEldestEntry`, which fires once the size exceeds 10. A present key keeps the size, becomes most recent and leaves every other entry alone. A new key in a non-full map is appended. A new key in a full map drops exactly the eldest key, and the size stays at 10. |
| WeatherCache.Empty | src/main/java/com/muruz/weather/WeatherCache.java:19-24 | A new cache holds no city and is well formed: at most 10 distinct lower-case keys. |
| WeatherCache.StoreRemove | src/main/java/com/muruz/weather/WeatherCache.java:90 | `LinkedHashMap.remove` leaves the key absent and every other entry as it was. The remaining keys keep their recency order, with the key erased. An absent key leaves the map unchanged. |
| WeatherCache.Replace | src/main/java/com/muruz/weather/WeatherCache.java:19-24 | A `put` on a present key replaces its entry, keeps the size and every other entry, and moves the key to the most-recent end. |
| WeatherCache.Insert | src/main/java/com/muruz/weather/WeatherCache.java:19-24 | A `put` on a new key stores it as most recent. Below capacity the size grows by one and nothing else changes. At capacity the eviction hook drops exactly the eldest key, and the size stays at 10. |
| WeatherCache.AccessGet | src/main/java/com/muruz/weather/WeatherCache.java:19 | A `get` in access order finds the stored entry, changes no entry and moves the key found to the most-recent end. |
| WeatherCache.GetIfValid | src/main/java/com/muruz/weather/WeatherCache.java:43-67 | The value is returned iff the lower-cased key is present and fresh at `now1` (`IsFresh`: `now1 - timestamp < 600000`), and it is the stored data. No other key changes. The key is removed iff it is stale at both clock readings. A hit makes the key most recent, and so does a stale first check whose re-check finds the entry fresh. A key stale at both readings is erased from the recency order, and the other keys keep their order. An absent key leaves the cache untouched. |
| WeatherCache.Recheck | src/main/java/com/muruz/weather/WeatherCache.java:53-57 | The exclusive re-check removes the key only if it is still present and still expired at the second clock reading. All other keys are unchanged. A key it keeps becomes most recent. A key it removes is erased from the recency order, and the rest keep their order. An absent key leaves the cache as it was. |
| WeatherCache.HitOnNewestIsNoOp | src/main/java/com/muruz/weather/WeatherCache.java:46-48 | A valid read of the most recently accessed key finds that key's entry and leaves the cache exactly as it was, because the access order does not change. |
| WeatherCache.Put | src/main/java/com/muruz/weather/WeatherCache.java:74-81 | The cache stays well formed (at most 10 distinct lower-case keys). The lower-cased key maps to the new data stamped with `now` and is the most recent key. Replacing a present key keeps the size and every other entry, and the other keys keep their relative order. A new key changes no other entry except that a full cache loses its eldest. |
| WeatherCache.Remove | src/main/java/com/muruz/weather/WeatherCache.java:87-94 | The lower-cased key is absent afterwards. Every other entry and the recency order of the rest are kept. An absent key leaves the cache unchanged. |
| WeatherCache.RemoveIdempotent | src/main/java/com/muruz/weather/WeatherCache.java:87-94 | A second `remove` of the same name changes nothing. |
| WeatherCache.CityNames | src/main/java/com/muruz/weather/WeatherCache.java:96-103 | The snapshot contains exactly the stored keys, all of them lower case. |
| WeatherCache.PutAllKeepsNewest | src/main/java/com/muruz/weather/WeatherCache.java:16-24 | Distinct new keys put one after another, with no reads, leave exactly the newest 10 keys in insertion order. Each overflow evicts the least recently accessed key. |
| WeatherCache.OverflowEvictsFirst | src/main/java/com/muruz/weather/WeatherCache.java:16-24 | Eleven distinct lower-case names put in order into an empty cache, with no reads, leave the last ten, and the first is no longer listed. |
| WeatherCache.ElevenPutsEvictTheFirst | src/main/java/com/muruz/weather/WeatherCache.java:16-24 | Putting k1..k11 into an empty cache leaves k2..k11, and `k1` is no longer listed. |
| WeatherCache.ReadHitDefersEviction | src/main/java/com/muruz/weather/WeatherCache.java:19 | A valid read counts as an access. After a hit on a full cache, inserting a new key keeps the entry just read. |
| WeatherCache.CaseInsensitiveKeys | src/main/java/com/muruz/weather/WeatherCache.java:46 | A value put under one spelling is read back, at the same clock reading, under any spelling with the same lower-case form. |
| WeatherCache.TokyoIsTOKYO | src/main/java/com/muruz/weather/WeatherCache.java:77 | `put("Tokyo", v)` followed by `getIfValid("TOKYO")` at the same time returns `v`. |
| WeatherCache.ExpiredReadRemoves | src/main/java/com/muruz/weather/WeatherCache.java:50-57 | When the clock does not run backwards, an entry found expired is gone afterwards. The read returns null, `getCityNames` no longer lists the key, and every other entry is unchanged. |
| WeatherCache.RecheckSparesRefreshedEntry | src/main/java/com/muruz/weather/WeatherCache.java:54-55 | An entry refreshed between the first check and the re-check is found valid by the re-check and kept. |
| WeatherCache.RePutSameEntry | src/main/java/com/muruz/weather/WeatherCache.java:77 | Putting an already listed key lands on that entry. The size and the key set are kept, only that key's entry changes, and nothing is evicted. The key becomes most recent and the others keep their order. |
| JavaStrings.ToLower | src/main/java/com/muruz/weather/WeatherCache.java:46 | Lower-casing keeps the length, folds each character on its own and always yields a lower-case string. |
| JavaStrings.ToLowerIdempotent | src/main/java/com/muruz/weather/WeatherCache.java:77 | Lower-casing twice is the same as lower-casing once, so an already lower-cased key is stored unchanged. |
| JavaStrings.TrimKeepsMiddle | src/main/java/com/muruz/weather/WeatherSDK.java:65 | `trim()` returns the slice of the string that starts after the leading characters at most the space character. Only such characters follow the slice. |
| JavaStrings.TrimEndsUntrimmable | src/main/java/com/muruz/weather/WeatherSDK.java:65 | A non-empty `trim()` result neither starts nor ends with a character at most the space character. |
| JavaStrings.TrimEmptyIffBlank | src/main/java/com/muruz/weather/WeatherSDK.java:65 | `Trim` (`trim()`) yields the empty string iff every character is at most the space character. |
| PollingManager.NewPoller | src/main/java/com/muruz/weather/PollingManager.java:20-30 | A new poller is not running, and its executor is live. |
| PollingManager.Start | src/main/java/com/muruz/weather/PollingManager.java:32-38 | Starting a running poller changes nothing. Starting an idle poller whose executor is live makes it run. Starting after a shutdown is rejected. |
| PollingManager.Stop | src/main/java/com/muruz/weather/PollingManager.java:40-54 | Afterwards the poller is not running. Stopping a running poller shuts its executor down for good. Stopping an idle poller changes nothing. |
| PollingManager.StartIdempotent | src/main/java/com/muruz/weather/PollingManager.java:33-37 | A second `start` is a no-op. |
| PollingManager.StopIdempotent | src/main/java/com/muruz/weather/PollingManager.java:41-53 | A second `stop` is a no-op. |
| PollingManager.StartAfterStopRejected | src/main/java/com/muruz/weather/PollingManager.java:34-42 | A stopped poller cannot be restarted, because its executor has been shut down. |
| PollingManager.RefreshOne | src/main/java/com/muruz/weather/PollingManager.java:65-73 | One loop iteration on a cached city keeps the cache well formed, with the same key set and size. A successful fetch makes the city most recent, and the other keys keep their order. A failed fetch leaves the cache exactly as it was. |
| PollingManager.RefreshOneLookup | src/main/java/com/muruz/weather/PollingManager.java:67-72 | A successful fetch replaces the city's entry with the value stamped `now`. A failed fetch leaves it alone. Every other entry is kept either way. |
| PollingManager.RefreshEach | src/main/java/com/muruz/weather/PollingManager.java:64-74 | The loop fetches for every key, in order, even past failures. It keeps the cache well formed and its key set and size unchanged. |
| PollingManager.RefreshEachRecency | src/main/java/com/muruz/weather/PollingManager.java:64-74 | After the loop, the keys whose fetch failed and the keys outside the run come first, in their old relative order. The keys whose fetch succeeded follow, in the order the loop fetched them. |
| PollingManager.RefreshEachLookup | src/main/java/com/muruz/weather/PollingManager.java:64-74 | After refreshing a run of keys, each key in the run whose fetch succeeded holds the fresh value at `now`. Every other key keeps its entry. |
| PollingManager.RefreshEachFailures | src/main/java/com/muruz/weather/PollingManager.java:71-73 | The failures of a run are exactly the keys in it whose fetch failed. Processing carries on past them. |
| PollingManager.PollAllCities | src/main/java/com/muruz/weather/PollingManager.java:56-76 | A cycle tries every key of the snapshot, even after failures. A successful key holds the fresh value at `now`, and a failed key keeps its old entry. No key is added or lost, and the size is kept. Afterwards the cities that failed keep their old relative order and are the least recent. The refreshed cities follow in iteration order. An empty cache means no fetch and no change. |
| WeatherSdk.NewSdk | src/main/java/com/muruz/weather/WeatherSDK.java:28-41 | A new instance has an empty cache. It has a poller, and that poller is started, iff its mode is polling. |
| WeatherSdk.GetInstance | src/main/java/com/muruz/weather/WeatherSDK.java:50-53 | A registered key returns its instance and changes nothing, whatever mode is asked for. An unregistered key gets exactly one new instance built from the configuration, under a fresh identity. No other object is created, and the next identity advances by one. That instance is registered, and every other registration and object is kept. The registry stays consistent, and pollers still run exactly for the registered polling instances. |
| WeatherSdk.GetInstanceIdempotent | src/main/java/com/muruz/weather/WeatherSDK.java:52 | Asking twice for the same key returns the same instance, and the second call creates nothing. |
| WeatherSdk.OneInstancePerKey | src/main/java/com/muruz/weather/WeatherSDK.java:16 | In a consistent registry no instance is registered under two keys. |
| WeatherSdk.EmptyRegistry | src/main/java/com/muruz/weather/WeatherSDK.java:16 | The process starts with no instance registered and no instance object. That registry is consistent, and no poller runs. |
| WeatherSdk.GetWeather | src/main/java/com/muruz/weather/WeatherSDK.java:64-90 | A null or blank name fails with no fetch and no state change. A valid hit returns the cached data with no fetch and no entry changed. The hit leaves the cache as `getIfValid` leaves it, so the city becomes the most recently accessed. A miss fetches under the caller's spelling. On success the value is put, after the read, under the lower-case key with the store time, and returned. On failure the error propagates and no value is stored, only the expired-read removal remains. A cold miss that fails leaves the instance exactly as it was. |
| WeatherSdk.GetWeatherIgnoresMode | src/main/java/com/muruz/weather/WeatherSDK.java:77-89 | On-demand and polling instances with the same cache give the same answer and end with the same cache. |
| WeatherSdk.MissThenHit | src/main/java/com/muruz/weather/WeatherSDK.java:71-87 | After a miss whose fetch succeeded, a later request for the same city within 10 minutes of the store time returns the fetched value from the cache, with no fetch. The fetched city is already the most recently accessed one, so that hit leaves the instance exactly as the miss left it. |
| WeatherSdk.MissStoresNewest | src/main/java/com/muruz/weather/WeatherSDK.java:79-82 | A miss whose fetch succeeds returns the fetched value and leaves it, stamped with the store time, in the most recently accessed slot. |
| WeatherSdk.HitOnNewestKeepsInstance | src/main/java/com/muruz/weather/WeatherSDK.java:71-75 | A valid hit on the city accessed last returns its cached data with no fetch and leaves the instance exactly as it was. |
| WeatherSdk.BlankNamesRejected | src/main/java/com/muruz/weather/WeatherSDK.java:65-67 | A given name is rejected as invalid iff it consists only of characters that `trim` strips. |
| WeatherSdk.FetchOnMiss | src/main/java/com/muruz/weather/WeatherSDK.java:79-82 | A fetched value is put, then returned. The cache afterwards is exactly the `put` of that value under the city at the store time, so the other entries change only as `put` allows. A fetch error is propagated without touching the instance. |
| WeatherSdk.DestroyAsWritten | src/main/java/com/muruz/weather/WeatherSDK.java:96-107 | As written: whatever is registered under the instance's key is removed, and the call reports success iff anything was. On success the registrations are the old ones minus that key. This instance keeps its key, mode and cache, and only its poller is stopped. No object is created or dropped, and the next identity is kept. Every other instance object is left exactly as it was, including any poller it runs. |
| WeatherSdk.Destroy | src/main/java/com/muruz/weather/WeatherSDK.java:96-107 | Intended version. A registered instance is unregistered and its own poller stopped. The instance keeps its key, mode and cache, no object is created or dropped, and the next identity is kept. An unregistered one is reported and nothing changes. Every other instance and its registration are untouched. Pollers still run exactly for the registered polling instances. |
| WeatherSdk.DestroyTwiceIsNoOp | src/main/java/com/muruz/weather/WeatherSDK.java:104-106 | A second `destroy` finds nothing, reports it and changes nothing. |
| WeatherSdk.DestroyDiffersOnlyWhenStale | src/main/java/com/muruz/weather/WeatherSDK.java:98 | Both versions of `destroy` agree, unless the instance's key has meanwhile been registered to another instance. |
| WeatherSdk.StaleDestroyLeaksPoller | src/main/java/com/muruz/weather/WeatherSDK.java:98-101 | As written: destroy A, create B for the same key, destroy A again. B is unregistered, B's own `destroy` finds nothing, and B's poller keeps running. |
| WeatherSdk.StaleDestroyOrphansSuccessor | src/main/java/com/muruz/weather/WeatherSDK.java:96-107 | As written, for any consistent registry: when a stale instance's key is registered to another instance B, destroying the stale instance unregisters B and leaves B as it was. B's own `destroy` then finds nothing. If pollers matched the registry before and B is a polling instance, B keeps polling with no registration to account for it. |
| WeatherSdk.StaleDestroyIsHarmless | src/main/java/com/muruz/weather/WeatherSDK.java:96-107 | With the intended `destroy`, the same sequence leaves B registered until its own `destroy`, which stops its poller. |
| WeatherSdk.ScheduledCycle | src/main/java/com/muruz/weather/PollingManager.java:34 | A scheduled firing runs the refresh cycle on the instance's cache only while the instance's poller runs. Otherwise the instance is unchanged. |
| WeatherSdk.PollingInstanceCachesCity | src/main/java/com/muruz/weather/WeatherSDK.java:34-36 | A new polling instance that served a non-blank city name on a miss is polling, returns the fetched value and caches exactly the lower-cased name. |
| WeatherSdk.PollingRefreshesWithoutClient | src/main/java/com/muruz/weather/PollingManager.java:64-70 | With no client call, one scheduled cycle on a polling instance holding one city replaces that entry with freshly fetched data stamped with the cycle's time. |

## Left out

- Concurrency is not modelled. This covers the read/write lock choreography in the cache, the atomicity of `computeIfAbsent`, `volatile`, the daemon scheduler thread, fixed-rate timing with its 10-minute period and the 5-second `awaitTermination`. Every operation is one atomic sequential step. A scheduler firing is one call to `WeatherSdk.ScheduledCycle`.
- The wall clock is replaced by explicit `nat` clock readings. The two readings of an expired read are separate parameters.
- Timestamps are unbounded naturals, so `long` overflow in `now - timestamp` is not modelled. It would take clock values near 2^63.
- The HTTP client (request building, HTTP status mapping) and JSON parsing are one abstract fetch per city name, a value or one of four error kinds. Transport failures are not modelled separately.
- A parse that yields `null` is not modelled. Gson returns `null` for an empty or `"null"` body (WeatherAPIClient.java:84). Java then caches that `null` and returns it from `getWeather`, and so does the poller. A later `getIfValid` returns the cached `null`, which `getWeather` treats as a miss and fetches again. In the model a successful fetch always carries a value, so a stored entry is always a later hit.
- The weather data DTO is an opaque type parameter `V`.
- The configuration builder and its null checks are replaced by a record with both fields present. The exception class is the error datatype.
- `getMode`, the example CLI and all logging are left out.
- JavaStrings.ToLower: folds only `A`-`Z`. Java's `toLowerCase` also folds non-ASCII letters and depends on the locale.
- PollingManager.PollAllCities: the snapshot's iteration order is a parameter (any sequence enumerating the key set), not `HashSet`'s order. All fetches of one cycle share a single clock reading.
- WeatherSdk.GetWeather: a failed fetch leaves the cache as the read left it, not as it was before the call, because the read has already removed an expired entry. The contract promises "unchanged" only for a cold miss. The rejection of a blank name is Java's `IllegalArgumentException`, which the model folds into the same error type as fetch failures.

## Findings

| source | as written | input that shows it | evidently intended | confidence | as-written member | corrected member |
|---|---|---|---|---|---|---|
| src/main/java/com/muruz/weather/WeatherSDK.java:98 | `destroy` removes whatever instance is registered under its API key (`instances.remove(key)`). | Get polling instance A for key K and destroy it. Get a new polling instance B for K. Call `A.destroy()` again. B is unregistered while A's already stopped poller is "stopped". `B.destroy()` then finds nothing, so B's poller is never stopped. | Remove the registration only if it is this instance's (`instances.remove(key, this)`). A stale `destroy` then reports and changes nothing. | not executed | WeatherSdk.StaleDestroyLeaksPoller | WeatherSdk.Destroy |

=== FILE: java_strings.dfy ===
/** The two java.lang.String operations the SDK relies on: `toLowerCase`, used to
    normalise city names, and `trim`, used to reject blank city names. */
module JavaStrings {

  /** Folds one ASCII upper-case letter to lower case; every other character is kept. */
  function FoldChar(c: char): char {
    if 'A' <= c <= 'Z' then (c as int + 32) as char else c
  }

  /** No character of `s` is an ASCII upper-case letter. */
  predicate IsLower(s: string) {
    forall i :: 0 <= i < |s| ==> !('A' <= s[i] <= 'Z')
  }

  /** `s.toLowerCase()`, restricted to the ASCII fold. */
  function ToLower(s: string): (r: string)
    ensures |r| == |s|
    ensures IsLower(r)
    ensures forall i :: 0 <= i < |s| ==> r[i] == FoldChar(s[i])
    decreases |s|
  {
    if |s| == 0 then [] else [FoldChar(s[0])] + ToLower(s[1..])
  }

  /** A string that is already lower case is its own fold. */
  lemma ToLowerFixesLower(s: string)
    requires IsLower(s)
    ensures ToLower(s) == s
  {
    assert forall i :: 0 <= i < |s| ==> ToLower(s)[i] == s[i];
  }

  /** Folding twice is folding once. */
  lemma ToLowerIdempotent(s: string)
    ensures ToLower(ToLower(s)) == ToLower(s)
  {
    ToLowerFixesLower(ToLower(s));
  }

  /** The running example: `Tokyo` and `TOKYO` both fold to `tokyo`. */
  lemma TokyoFolds()
    ensures ToLower("Tokyo") == "tokyo" && ToLower("TOKYO") == "tokyo"
  {
    assert forall i :: 0 <= i < 5 ==> ToLower("Tokyo")[i] == "tokyo"[i];
    assert forall i :: 0 <= i < 5 ==> ToLower("TOKYO")[i] == "tokyo"[i];
  }

  /** Characters `trim` strips: everything up to and including the space, U+0020. */
  predicate IsTrimmable(c: char) {
    c <= ' '
  }

  /** Every character of `s` would be stripped by `trim`. */
  predicate IsBlank(s: string) {
    forall i :: 0 <= i < |s| ==> IsTrimmable(s[i])
  }

  /** Drops leading trimmable characters: the result is the longest suffix of `s`
      that does not start with one. */
  function TrimStart(s: string): (r: string)
    ensures |r| <= |s| && r == s[|s| - |r|..]
    ensures forall i :: 0 <= i < |s| - |r| ==> IsTrimmable(s[i])
    ensures |r| == 0 || !IsTrimmable(r[0])
    decreases |s|
  {
    if |s| > 0 && IsTrimmable(s[0]) then TrimStart(s[1..]) else s
  }

  /** Drops trailing trimmable characters: the result is the longest prefix of `s`
      that does not end with one. */
  function TrimEnd(s: string): (r: string)
    ensures |r| <= |s| && r == s[..|r|]
    ensures forall i :: |r| <= i < |s| ==> IsTrimmable(s[i])
    ensures |r| == 0 || !IsTrimmable(r[|r| - 1])
    decreases |s|
  {
    if |s| > 0 && IsTrimmable(s[|s| - 1]) then TrimEnd(s[..|s| - 1]) else s
  }

  /** `s.trim()`. */
  function Trim(s: string): string {
    TrimEnd(TrimStart(s))
  }

  /** A prefix `r` of a suffix `t` of `s`, where everything of `s` before `t` and
      everything of `t` after `r` is trimmable and neither `t` nor `r` has a
      trimmable character at its cut end, is the middle of `s` at offset `|s| - |t|`. */
  lemma {:induction false} PrefixOfSuffix(s: string, t: string, r: string)
    requires |t| <= |s| && t == s[|s| - |t|..]
    requires forall i :: 0 <= i < |s| - |t| ==> IsTrimmable(s[i])
    requires |t| == 0 || !IsTrimmable(t[0])
    requires |r| <= |t| && r == t[..|r|]
    requires forall i :: |r| <= i < |t| ==> IsTrimmable(t[i])
    requires |r| == 0 || !IsTrimmable(r[|r| - 1])
    ensures var start := |s| - |t|;
              && start + |r| <= |s|
              && (forall i :: 0 <= i < |r| ==> r[i] == s[start + i])
              && (|r| == 0 || (!IsTrimmable(r[0]) && !IsTrimmable(r[|r| - 1])))
              && (forall i :: 0 <= i < start ==> IsTrimmable(s[i]))
              && (forall i :: start + |r| <= i < |s| ==> IsTrimmable(s[i]))
  {
    var start := |s| - |t|;
    forall i | start + |r| <= i < |s|
      ensures IsTrimmable(s[i])
    {
      assert s[i] == t[i - start];
    }
    if |r| > 0 {
      assert r[0] == t[0];
    }
  }

  /** `s.trim()` is the slice of `s` that starts after the leading trimmable
      characters and is followed only by trimmable characters. */
  lemma {:induction false} TrimKeepsMiddle(s: string)
    ensures var r := Trim(s);
            var start := |s| - |TrimStart(s)|;
              && start + |r| <= |s|
              && (forall i :: 0 <= i < |r| ==> r[i] == s[start + i])
              && (forall i :: 0 <= i < start ==> IsTrimmable(s[i]))
              && (forall i :: start + |r| <= i < |s| ==> IsTrimmable(s[i]))
  {
    PrefixOfSuffix(s, TrimStart(s), TrimEnd(TrimStart(s)));
  }

  /** `s.trim()` neither starts nor ends with a trimmable character. */
  lemma {:induction false} TrimEndsUntrimmable(s: string)
    ensures var r := Trim(s);
              |r| == 0 || (!IsTrimmable(r[0]) && !IsTrimmable(r[|r| - 1]))
  {
    PrefixOfSuffix(s, TrimStart(s), TrimEnd(TrimStart(s)));
  }

  /** `s.trim().isEmpty()` holds exactly when every character of `s` is trimmable. */
  lemma TrimEmptyIffBlank(s: string)
    ensures |Trim(s)| == 0 <==> IsBlank(s)
  {
    var t := TrimStart(s);
    if !IsBlank(s) {
      var i :| 0 <= i < |s| && !IsTrimmable(s[i]);
      var j := i - (|s| - |t|);
      assert 0 <= j < |t| && t[j] == s[i];
      assert j < |TrimEnd(t)|;
    }
  }
}

=== FILE: polling_manager.dfy ===
/** The background refresher bound to one cache: the `isRunning` flag, the executor it
    schedules on, and one refresh cycle over the cached cities. Timing, threads and
    the grace period of `stop` are not part of this model: a cycle is one step. */
module PollingManager {
  import opened Results
  import opened JavaStrings
  import opened WeatherCache
  import opened WeatherApi

  /** The poller's state: whether a schedule is active, and whether its executor has
      been shut down. A shut-down executor never accepts a schedule again. */
  datatype Poller = Poller(isRunning: bool, shutdown: bool)

  /** `scheduleAtFixedRate` on a shut-down executor throws `RejectedExecutionException`. */
  datatype PollerError = Rejected

  /** A freshly constructed poller: not running, executor live. */
  function NewPoller(): (p: Poller)
    ensures !p.isRunning && !p.shutdown
  {
    Poller(false, false)
  }

  /** Running implies the executor is still live. */
  predicate PollerInvariant(p: Poller) {
    p.isRunning ==> !p.shutdown
  }

  /** `start()`: only when not running, schedule the cycle and set `isRunning`. */
  function Start(p: Poller): (r: Result<Poller, PollerError>)
    ensures r.Success? <==> p.isRunning || !p.shutdown
    ensures r.Success? ==> r.value.isRunning && r.value.shutdown == p.shutdown
    ensures p.isRunning ==> r == Success(p)
    ensures PollerInvariant(p) && r.Success? ==> PollerInvariant(r.value)
  {
    if !p.isRunning then
      if p.shutdown then Failure(Rejected) else Success(Poller(true, false))
    else Success(p)
  }

  /** `stop()`: only when running, shut the executor down and clear `isRunning`. */
  function Stop(p: Poller): (r: Poller)
    ensures !r.isRunning
    ensures PollerInvariant(r)
    ensures p.isRunning ==> r.shutdown
    ensures p.shutdown ==> r.shutdown
    ensures !p.isRunning ==> r == p
  {
    if p.isRunning then Poller(false, true) else p
  }

  /** A second `start` is a no-op. */
  lemma StartIdempotent(p: Poller)
    requires Start(p).Success?
    ensures Start(Start(p).value) == Start(p)
  {
  }

  /** A second `stop` is a no-op. */
  lemma StopIdempotent(p: Poller)
    ensures Stop(Stop(p)) == Stop(p)
  {
  }

  /** The executor is one-way: once a running poller is stopped, it cannot be started again. */
  lemma StartAfterStopRejected(p: Poller)
    requires p.isRunning
    ensures Start(Stop(p)) == Failure(Rejected)
  {
  }

  /** What one refresh cycle did: the cache afterwards, the cities it fetched for in
      order, and those whose fetch failed (each logged and skipped). */
  datatype Cycle<V> = Cycle(cache: Cache<V>, attempted: seq<string>, failed: seq<string>)

  /** `order` lists every element of `names` exactly once: an iteration order of the set. */
  predicate Enumerates(order: seq<string>, names: set<string>) {
    && DistinctNames(order)
    && (forall k :: k in order ==> k in names)
    && (forall k :: k in names ==> k in order)
  }

  /** An enumeration is empty exactly when the set it enumerates is. */
  lemma EnumeratesEmpty(order: seq<string>, names: set<string>)
    requires Enumerates(order, names)
    ensures |order| == 0 <==> names == {}
  {
    if |order| > 0 {
      assert order[0] in names;
    }
    if names != {} {
      var k :| k in names;
      assert k in order;
    }
  }

  /** One iteration of the cycle's loop: on a successful fetch, put the fresh value
      under the (already lower-case) cached key; on a failure, leave the cache alone. */
  function RefreshOne<V>(c: Cache<V>, city: string, outcome: Result<V, FetchError>, now: nat): (r: Cache<V>)
    requires Wellformed(c) && city in CityNames(c)
    ensures Wellformed(r)
    ensures CityNames(r) == CityNames(c) && |r.slots| == |c.slots|
    ensures outcome.Success? ==> Cities(r.slots) == Erase(Cities(c.slots), city) + [city]
    ensures outcome.Failure? ==> r == c
  {
    match outcome
    case Success(data) =>
      RePutSameEntry(c, city, data, now);
      Put(c, city, data, now)
    case Failure(_) => c
  }

  /** One iteration changes only the entry of its own city: the fresh value on a
      successful fetch, the old entry on a failure. */
  lemma RefreshOneLookup<V>(c: Cache<V>, city: string, outcome: Result<V, FetchError>, now: nat)
    requires Wellformed(c) && city in CityNames(c)
    ensures Lookup(RefreshOne(c, city, outcome, now), city)
            == if outcome.Success? then Some(CachedWeatherData(outcome.value, now)) else Lookup(c, city)
    ensures forall k :: k != city ==> Lookup(RefreshOne(c, city, outcome, now), k) == Lookup(c, k)
  {
    if outcome.Success? {
      RePutSameEntry(c, city, outcome.value, now);
    }
  }

  /** The loop of the cycle over `keys`, in order: every city is fetched for, and a
      failure for one city does not stop the others. */
  function RefreshEach<V>(c: Cache<V>, keys: seq<string>, fetch: Fetch<V>, now: nat): (r: Cycle<V>)
    requires Wellformed(c) && DistinctNames(keys)
    requires forall k :: k in keys ==> k in CityNames(c)
    ensures Wellformed(r.cache)
    ensures CityNames(r.cache) == CityNames(c) && |r.cache.slots| == |c.slots|
    ensures r.attempted == keys
    decreases |keys|
  {
    if |keys| == 0 then Cycle(c, [], [])
    else
      var city := keys[0];
      var tail := keys[1..];
      TailOfDistinct(keys);
      var c1 := RefreshOne(c, city, fetch(city), now);
      var rest := RefreshEach(c1, tail, fetch, now);
      Cycle(rest.cache, [city] + rest.attempted, (if fetch(city).Failure? then [city] else []) + rest.failed)
  }

  /** After the loop, every city whose fetch succeeded holds the fresh value stamped
      `now`, every city whose fetch failed keeps its old entry, and cities outside
      the snapshot are untouched. */
  lemma {:induction false} RefreshEachLookup<V>(c: Cache<V>, keys: seq<string>, fetch: Fetch<V>, now: nat)
    requires Wellformed(c) && DistinctNames(keys)
    requires forall k :: k in keys ==> k in CityNames(c)
    ensures var r := RefreshEach(c, keys, fetch, now);
            forall k :: Lookup(r.cache, k) ==
              if k in keys && fetch(k).Success? then Some(CachedWeatherData(fetch(k).value, now))
              else Lookup(c, k)
    decreases |keys|
  {
    if |keys| > 0 {
      var city := keys[0];
      TailOfDistinct(keys);
      var c1 := RefreshOne(c, city, fetch(city), now);
      RefreshOneLookup(c, city, fetch(city), now);
      RefreshEachLookup(c1, keys[1..], fetch, now);
    }
  }

  /** The cities of `keys` whose fetch succeeds, in the order of `keys`. */
  function Succeeded<V>(keys: seq<string>, fetch: Fetch<V>): (r: seq<string>)
    ensures forall k :: k in r <==> k in keys && fetch(k).Success?
  {
    if |keys| == 0 then []
    else (if fetch(keys[0]).Success? then [keys[0]] else []) + Succeeded(keys[1..], fetch)
  }

  /** The recency order after the loop: the cities the loop did not refresh keep
      their relative order and come first, then the refreshed cities follow in the
      order they were fetched. */
  lemma {:induction false} RefreshEachRecency<V>(c: Cache<V>, keys: seq<string>, fetch: Fetch<V>, now: nat)
    requires Wellformed(c) && DistinctNames(keys)
    requires forall k :: k in keys ==> k in CityNames(c)
    ensures Cities(RefreshEach(c, keys, fetch, now).cache.slots)
            == Without(Cities(c.slots), Succeeded(keys, fetch)) + Succeeded(keys, fetch)
    decreases |keys|
  {
    if |keys| == 0 {
      WithoutNothing(Cities(c.slots));
    } else {
      var city := keys[0];
      var tail := keys[1..];
      TailOfDistinct(keys);
      var c1 := RefreshOne(c, city, fetch(city), now);
      RefreshEachRecency(c1, tail, fetch, now);
      var later := Succeeded(tail, fetch);
      var after := Cities(RefreshEach(c1, tail, fetch, now).cache.slots);
      assert after == Without(Cities(c1.slots), later) + later;
      assert Cities(RefreshEach(c, keys, fetch, now).cache.slots) == after;
      if fetch(city).Success? {
        assert Succeeded(keys, fetch) == [city] + later;
        assert Cities(c1.slots) == Erase(Cities(c.slots), city) + [city];
        MovedThenWithout(Cities(c.slots), city, later);
      } else {
        assert Succeeded(keys, fetch) == later;
        assert c1 == c;
      }
    }
  }

  /** The step of the loop's recency order: a city refreshed before the `later` ones
      sits, among the cities nobody refreshes, at the most recent end. */
  lemma {:induction false} MovedThenWithout(xs: seq<string>, city: string, later: seq<string>)
    requires city !in later
    ensures Without(Erase(xs, city) + [city], later) + later == Without(xs, [city] + later) + ([city] + later)
  {
    var kept := Erase(xs, city);
    WithoutAppend(kept, [city], later);
    EraseThenWithout(xs, city, later);
    assert [city][1..] == [];
    assert Without([city], later) == [city] + Without([], later);
    var w := Without(xs, [city] + later);
    assert Without(kept + [city], later) == w + [city];
    assert (w + [city]) + later == w + ([city] + later);
  }

  /** The failures reported by the loop are exactly the cities whose fetch failed. */
  lemma {:induction false} RefreshEachFailures<V>(c: Cache<V>, keys: seq<string>, fetch: Fetch<V>, now: nat)
    requires Wellformed(c) && DistinctNames(keys)
    requires forall k :: k in keys ==> k in CityNames(c)
    ensures forall k :: k in RefreshEach(c, keys, fetch, now).failed <==> k in keys && fetch(k).Failure?
    decreases |keys|
  {
    if |keys| > 0 {
      var city := keys[0];
      TailOfDistinct(keys);
      var c1 := RefreshOne(c, city, fetch(city), now);
      RefreshEachFailures(c1, keys[1..], fetch, now);
    }
  }

  /** The tail of a list of distinct names is distinct and lacks the head. */
  lemma TailOfDistinct(keys: seq<string>)
    requires DistinctNames(keys) && |keys| > 0
    ensures DistinctNames(keys[1..])
    ensures keys[0] !in keys[1..]
    ensures forall k :: k in keys <==> k == keys[0] || k in keys[1..]
  {
    var tail := keys[1..];
    forall i, j | 0 <= i < j < |tail| ensures tail[i] != tail[j] {
      assert tail[i] == keys[i + 1] && tail[j] == keys[j + 1];
    }
    forall i | 0 <= i < |tail| ensures tail[i] != keys[0] {
      assert tail[i] == keys[i + 1];
    }
    assert keys == [keys[0]] + tail;
  }

  /** `pollAllCities()`: snapshot the cached city names, return at once if there are
      none, otherwise refresh each of them. `order` is the iteration order of the
      snapshot set, which the Java runtime chooses. */
  function PollAllCities<V>(c: Cache<V>, order: seq<string>, fetch: Fetch<V>, now: nat): (r: Cycle<V>)
    requires Wellformed(c) && Enumerates(order, CityNames(c))
    ensures Wellformed(r.cache)
    ensures CityNames(r.cache) == CityNames(c) && |r.cache.slots| == |c.slots|
    ensures forall k :: Lookup(r.cache, k) ==
              if k in CityNames(c) && fetch(k).Success? then Some(CachedWeatherData(fetch(k).value, now))
              else Lookup(c, k)
    ensures forall k :: k in r.attempted <==> k in CityNames(c)
    ensures forall k :: k in r.failed <==> k in CityNames(c) && fetch(k).Failure?
    ensures Cities(r.cache.slots) == Without(Cities(c.slots), Succeeded(order, fetch)) + Succeeded(order, fetch)
    ensures CityNames(c) == {} ==> r == Cycle(c, [], [])
  {
    var cityNames := CityNames(c);
    if cityNames == {} then
      EnumeratesEmpty(order, cityNames);
      WithoutNothing(Cities(c.slots));
      Cycle(c, [], [])
    else
      RefreshEachLookup(c, order, fetch, now);
      RefreshEachFailures(c, order, fetch, now);
      RefreshEachRecency(c, order, fetch, now);
      RefreshEach(c, order, fetch, now)
  }
}

=== FILE: results.dfy ===
/** Absent-or-present values and success-or-error values, standing in for Java's
    null returns and checked exceptions. */
module Results {

  /** A value that may be missing (Java's `null`). */
  datatype Option<+T> = None | Some(value: T)

  /** The outcome of a call that either returns a value or throws. */
  datatype Result<+T, +E> = Success(value: T) | Failure(error: E)
}

=== FILE: weather_api.dfy ===
/** The interface of the HTTP client as the core sees it: one call that fetches and
    parses the weather of a city, returning the value or the kind of failure. */
module WeatherApi {
  import opened Results

  /** What fetching and parsing can fail with: a 401 response, a 404 response, a 429
      response, and everything else (other status codes, network and parse errors). */
  datatype FetchError = InvalidApiKey | CityNotFound | ApiLimitExceeded | Other

  /** Fetch-then-parse for a city name, as a total function of the name. */
  type Fetch<V> = string -> Result<V, FetchError>
}

=== FILE: weather_cache.dfy ===
/** The bounded, time-limited cache of weather data keyed by lower-cased city name.

    The Java class keeps a `LinkedHashMap` in access order: every `get` and every
    `put` moves the touched entry to the most recent end, and an insertion that
    takes the map past its capacity drops the eldest entry. Here the map is a
    sequence of slots, least recently accessed first. Clock readings are explicit
    `now` parameters. */
module WeatherCache {
  import opened Results
  import opened JavaStrings

  /** How many cities the cache holds at most. */
  const MaxCachedCities: nat := 10

  /** How long, in milliseconds, a stored entry stays valid: ten minutes. */
  const ValidityPeriodMs: nat := 10 * 60 * 1000

  /** A stored value with the clock reading taken when the entry was created. */
  datatype CachedWeatherData<V> = CachedWeatherData(data: V, timestamp: nat)

  /** One key of the access-ordered map with its entry. */
  datatype Slot<V> = Slot(city: string, entry: CachedWeatherData<V>)

  /** The access-ordered map: least recently accessed first, most recent last. */
  datatype Cache<V> = Cache(slots: seq<Slot<V>>)

  /** An entry is valid while less than the validity period has passed since it
      was stored. A timestamp later than `now` counts as valid, as the Java
      subtraction does. */
  predicate IsFresh<V>(e: CachedWeatherData<V>, now: nat) {
    now - e.timestamp < ValidityPeriodMs
  }

  // ---------------------------------------------------------------------------
  // Keys, lookup and recency order over the slot sequence

  /** The keys in recency order, least recent first. */
  function Cities<V>(slots: seq<Slot<V>>): seq<string> {
    seq(|slots|, i requires 0 <= i < |slots| => slots[i].city)
  }

  /** No key appears twice. */
  predicate DistinctCities<V>(slots: seq<Slot<V>>) {
    forall i, j :: 0 <= i < j < |slots| ==> slots[i].city != slots[j].city
  }

  /** What every reachable cache satisfies: within capacity, one slot per key,
      every key lower case. */
  predicate Wellformed<V>(c: Cache<V>) {
    && |c.slots| <= MaxCachedCities
    && DistinctCities(c.slots)
    && forall i :: 0 <= i < |c.slots| ==> IsLower(c.slots[i].city)
  }

  /** The cache of a freshly constructed `WeatherCache`. */
  function Empty<V>(): (c: Cache<V>)
    ensures Wellformed(c) && |c.slots| == 0
  {
    Cache([])
  }

  /** The entry stored under `city`, found from the eldest end. */
  function LookupIn<V>(slots: seq<Slot<V>>, city: string): (r: Option<CachedWeatherData<V>>)
    ensures r.None? <==> forall i :: 0 <= i < |slots| ==> slots[i].city != city
    ensures r.Some? ==> exists i :: 0 <= i < |slots| && slots[i] == Slot(city, r.value)
  {
    if |slots| == 0 then None
    else if slots[0].city == city then Some(slots[0].entry)
    else LookupIn(slots[1..], city)
  }

  /** The entry the map holds for `city`, without touching its recency. */
  function Lookup<V>(c: Cache<V>, city: string): Option<CachedWeatherData<V>> {
    LookupIn(c.slots, city)
  }

  /** `xs` with every occurrence of `x` taken out, the rest in their order. */
  function Erase(xs: seq<string>, x: string): (r: seq<string>)
    ensures forall y :: y in r <==> y in xs && y != x
    ensures x !in xs ==> r == xs
  {
    if |xs| == 0 then []
    else if xs[0] == x then Erase(xs[1..], x)
    else [xs[0]] + Erase(xs[1..], x)
  }

  /** Erasing distributes over concatenation. */
  lemma {:induction false} EraseAppend(xs: seq<string>, ys: seq<string>, x: string)
    ensures Erase(xs + ys, x) == Erase(xs, x) + Erase(ys, x)
  {
    if |xs| == 0 {
      assert xs + ys == ys;
    } else {
      assert (xs + ys)[0] == xs[0] && (xs + ys)[1..] == xs[1..] + ys;
      EraseAppend(xs[1..], ys, x);
    }
  }

  /** Erasing a key that an access has just moved to the most recent end gives what
      erasing it in place gives. */
  lemma EraseMoved(xs: seq<string>, x: string)
    ensures Erase(Erase(xs, x) + [x], x) == Erase(xs, x)
  {
    EraseAppend(Erase(xs, x), [x], x);
    assert [x][1..] == [];
  }

  /** `xs` without any element of `gone`, the rest in their order. */
  function Without(xs: seq<string>, gone: seq<string>): (r: seq<string>)
    ensures |r| <= |xs|
  {
    if |xs| == 0 then []
    else (if xs[0] in gone then [] else [xs[0]]) + Without(xs[1..], gone)
  }

  /** Taking nothing out leaves the list as it was. */
  lemma {:induction false} WithoutNothing(xs: seq<string>)
    ensures Without(xs, []) == xs
  {
    if |xs| > 0 {
      WithoutNothing(xs[1..]);
      assert xs == [xs[0]] + xs[1..];
    }
  }

  /** Taking elements out distributes over concatenation. */
  lemma {:induction false} WithoutAppend(xs: seq<string>, ys: seq<string>, gone: seq<string>)
    ensures Without(xs + ys, gone) == Without(xs, gone) + Without(ys, gone)
  {
    if |xs| == 0 {
      assert xs + ys == ys;
    } else {
      assert (xs + ys)[0] == xs[0] && (xs + ys)[1..] == xs[1..] + ys;
      WithoutAppend(xs[1..], ys, gone);
    }
  }

  /** Erasing `x` and then taking out `gone` is taking out `x` and `gone` at once. */
  lemma {:induction false} EraseThenWithout(xs: seq<string>, x: string, gone: seq<string>)
    ensures Without(Erase(xs, x), gone) == Without(xs, [x] + gone)
  {
    if |xs| > 0 {
      EraseThenWithout(xs[1..], x, gone);
      if xs[0] != x {
        var e := [xs[0]] + Erase(xs[1..], x);
        assert e[0] == xs[0] && e[1..] == Erase(xs[1..], x);
      }
    }
  }

  /** Takes the first slot of `city` out of the map (the linked-list unlink). */
  function Unlink<V>(slots: seq<Slot<V>>, city: string): (r: seq<Slot<V>>)
    ensures LookupIn(slots, city).None? ==> r == slots
    ensures LookupIn(slots, city).Some? ==> |r| == |slots| - 1
    ensures forall k :: k != city ==> LookupIn(r, k) == LookupIn(slots, k)
    ensures forall s :: s in r ==> s in slots
  {
    if |slots| == 0 then []
    else if slots[0].city == city then slots[1..]
    else
      var rest := Unlink(slots[1..], city);
      assert forall s :: s in [slots[0]] + rest ==> s == slots[0] || s in rest;
      [slots[0]] + rest
  }

  /** The tail of a map with one slot per key has one slot per key and lacks the head's key. */
  lemma DistinctTail<V>(slots: seq<Slot<V>>)
    requires DistinctCities(slots) && |slots| > 0
    ensures DistinctCities(slots[1..])
    ensures LookupIn(slots[1..], slots[0].city).None?
  {
    forall i | 0 <= i < |slots[1..]| ensures slots[1..][i].city != slots[0].city {
      assert slots[1..][i] == slots[i + 1];
    }
  }

  /** Putting a slot for an absent key in front keeps one slot per key. */
  lemma DistinctCons<V>(s: Slot<V>, rest: seq<Slot<V>>)
    requires DistinctCities(rest) && LookupIn(rest, s.city).None?
    ensures DistinctCities([s] + rest)
  {
    var r := [s] + rest;
    forall i, j | 0 <= i < j < |r| ensures r[i].city != r[j].city {
      assert r[j] == rest[j - 1];
      if i > 0 {
        assert r[i] == rest[i - 1];
      }
    }
  }

  /** With one slot per key, unlinking keeps the keys distinct and forgets the key. */
  lemma {:induction false} UnlinkDistinct<V>(slots: seq<Slot<V>>, city: string)
    requires DistinctCities(slots)
    ensures DistinctCities(Unlink(slots, city))
    ensures LookupIn(Unlink(slots, city), city).None?
  {
    if |slots| > 0 {
      DistinctTail(slots);
      if slots[0].city != city {
        UnlinkDistinct(slots[1..], city);
        var rest := Unlink(slots[1..], city);
        assert LookupIn(rest, slots[0].city) == LookupIn(slots[1..], slots[0].city);
        DistinctCons(slots[0], rest);
      }
    }
  }

  /** With one slot per key, unlinking erases the key from the recency order and
      leaves the other keys in their order. */
  lemma {:induction false} UnlinkRecency<V>(slots: seq<Slot<V>>, city: string)
    requires DistinctCities(slots)
    ensures Cities(Unlink(slots, city)) == Erase(Cities(slots), city)
  {
    if |slots| > 0 {
      DistinctTail(slots);
      var tail := slots[1..];
      var xs := Cities(slots);
      CitiesCons(slots);
      if slots[0].city == city {
        CitiesMembership(tail);
        assert city !in Cities(tail);
        assert Erase(xs, city) == Erase(Cities(tail), city);
      } else {
        UnlinkRecency(tail, city);
        var rest := Unlink(tail, city);
        var r := [slots[0]] + rest;
        CitiesCons(r);
        assert r[1..] == rest;
        assert Erase(xs, city) == [xs[0]] + Erase(xs[1..], city);
      }
    }
  }

  /** The recency order of a non-empty map is its eldest key followed by the rest. */
  lemma CitiesCons<V>(slots: seq<Slot<V>>)
    requires |slots| > 0
    ensures Cities(slots) == [slots[0].city] + Cities(slots[1..])
  {
    assert forall i :: 0 <= i < |slots| - 1 ==> Cities(slots)[i + 1] == Cities(slots[1..])[i];
  }

  /** Appending a slot for a new key: old lookups stay, the new key finds its entry. */
  lemma {:induction false} LookupAppend<V>(slots: seq<Slot<V>>, s: Slot<V>)
    requires LookupIn(slots, s.city).None?
    ensures forall k :: LookupIn(slots + [s], k) == if k == s.city then Some(s.entry) else LookupIn(slots, k)
    ensures DistinctCities(slots) ==> DistinctCities(slots + [s])
    ensures Cities(slots + [s]) == Cities(slots) + [s.city]
  {
    if |slots| > 0 {
      assert (slots + [s])[1..] == slots[1..] + [s];
      LookupAppend(slots[1..], s);
    }
  }

  /** Dropping the eldest slot forgets exactly its key. */
  lemma LookupDropEldest<V>(slots: seq<Slot<V>>)
    requires DistinctCities(slots) && |slots| > 0
    ensures forall k :: LookupIn(slots[1..], k) == if k == slots[0].city then None else LookupIn(slots, k)
    ensures DistinctCities(slots[1..])
    ensures Cities(slots[1..]) == Cities(slots)[1..]
  {
    DistinctTail(slots);
    CitiesCons(slots);
    assert ([slots[0].city] + Cities(slots[1..]))[1..] == Cities(slots[1..]);
    forall k ensures LookupIn(slots[1..], k) == if k == slots[0].city then None else LookupIn(slots, k) {
    }
  }

  /** A key is in the recency order exactly when a lookup finds it. */
  lemma CitiesMembership<V>(slots: seq<Slot<V>>)
    ensures forall k :: k in Cities(slots) <==> LookupIn(slots, k).Some?
  {
    forall k ensures k in Cities(slots) <==> LookupIn(slots, k).Some? {
      if LookupIn(slots, k).Some? {
        var i :| 0 <= i < |slots| && slots[i].city == k;
        assert Cities(slots)[i] == k;
      }
    }
  }

  // ---------------------------------------------------------------------------
  // The access-ordered LinkedHashMap

  /** What `get` returns together with the map after the access. */
  datatype Access<V> = Access(found: Option<CachedWeatherData<V>>, cache: Cache<V>)

  /** `LinkedHashMap.get` in access order: finds the entry and, if there is one,
      makes it the most recently accessed. */
  function AccessGet<V>(c: Cache<V>, city: string): (r: Access<V>)
    requires Wellformed(c)
    ensures Wellformed(r.cache)
    ensures r.found == Lookup(c, city)
    ensures forall k :: Lookup(r.cache, k) == Lookup(c, k)
    ensures r.found.None? ==> r.cache == c
    ensures |r.cache.slots| == |c.slots|
    ensures r.found.Some? ==> Cities(r.cache.slots) == Erase(Cities(c.slots), city) + [city]
  {
    match LookupIn(c.slots, city)
    case None => Access(None, c)
    case Some(e) =>
      var rest := Unlink(c.slots, city);
      UnlinkDistinct(c.slots, city);
      UnlinkRecency(c.slots, city);
      LookupAppend(rest, Slot(city, e));
      assert forall i :: 0 <= i < |rest + [Slot(city, e)]| ==> (rest + [Slot(city, e)])[i] in c.slots;
      Access(Some(e), Cache(rest + [Slot(city, e)]))
  }

  /** With one slot per key, unlinking the key of the last slot drops that slot. */
  lemma {:induction false} UnlinkLast<V>(slots: seq<Slot<V>>, city: string)
    requires DistinctCities(slots) && |slots| > 0 && slots[|slots| - 1].city == city
    ensures Unlink(slots, city) == slots[..|slots| - 1]
    ensures LookupIn(slots, city) == Some(slots[|slots| - 1].entry)
  {
    if |slots| > 1 {
      assert slots[0].city != city by {
        assert slots[0].city != slots[|slots| - 1].city;
      }
      DistinctTail(slots);
      assert slots[1..][|slots[1..]| - 1] == slots[|slots| - 1];
      UnlinkLast(slots[1..], city);
      assert slots == [slots[0]] + slots[1..][..|slots[1..]| - 1] + [slots[|slots| - 1]];
    }
  }

  /** Accessing the most recently accessed key leaves the map exactly as it was. */
  lemma {:induction false} AccessNewestIsNoOp<V>(c: Cache<V>, city: string)
    requires Wellformed(c) && |c.slots| > 0 && c.slots[|c.slots| - 1].city == city
    ensures AccessGet(c, city).cache == c
  {
    var slots := c.slots;
    UnlinkLast(slots, city);
    assert slots == slots[..|slots| - 1] + [slots[|slots| - 1]];
  }

  /** The eviction hook: true once the map holds more entries than allowed. */
  predicate RemoveEldestEntry<V>(c: Cache<V>) {
    |c.slots| > MaxCachedCities
  }

  /** `LinkedHashMap.put` of a present key: the entry is replaced and moved to the
      most recent end; the eviction hook finds nothing to evict. */
  function Replace<V>(c: Cache<V>, city: string, e: CachedWeatherData<V>): (r: Cache<V>)
    requires Wellformed(c) && IsLower(city) && Lookup(c, city).Some?
    ensures Wellformed(r)
    ensures Lookup(r, city) == Some(e)
    ensures |r.slots| == |c.slots|
    ensures Cities(r.slots) == Erase(Cities(c.slots), city) + [city]
    ensures forall k :: k != city ==> Lookup(r, k) == Lookup(c, k)
  {
    var s := Slot(city, e);
    var rest := Unlink(c.slots, city);
    UnlinkDistinct(c.slots, city);
    UnlinkRecency(c.slots, city);
    LookupAppend(rest, s);
    var grown := Cache(rest + [s]);
    assert forall i :: 0 <= i < |grown.slots| ==> grown.slots[i] == s || grown.slots[i] in c.slots;
    grown
  }

  /** `LinkedHashMap.put` of a new key: the entry is appended and, when that
      overflows the capacity, the eviction hook drops the eldest. */
  function Insert<V>(c: Cache<V>, city: string, e: CachedWeatherData<V>): (r: Cache<V>)
    requires Wellformed(c) && IsLower(city) && Lookup(c, city).None?
    ensures Wellformed(r)
    ensures Lookup(r, city) == Some(e)
    ensures |c.slots| < MaxCachedCities ==>
              && |r.slots| == |c.slots| + 1
              && Cities(r.slots) == Cities(c.slots) + [city]
              && forall k :: k != city ==> Lookup(r, k) == Lookup(c, k)
    ensures |c.slots| == MaxCachedCities ==>
              && |r.slots| == MaxCachedCities
              && Cities(r.slots) == Cities(c.slots)[1..] + [city]
              && Lookup(r, c.slots[0].city) == None
              && forall k :: k != city && k != c.slots[0].city ==> Lookup(r, k) == Lookup(c, k)
  {
    var s := Slot(city, e);
    LookupAppend(c.slots, s);
    var grown := Cache(c.slots + [s]);
    assert forall i :: 0 <= i < |grown.slots| ==> IsLower(grown.slots[i].city) by {
      forall i | 0 <= i < |grown.slots| ensures IsLower(grown.slots[i].city) {
        if i < |c.slots| {
          assert grown.slots[i] == c.slots[i];
        }
      }
    }
    if RemoveEldestEntry(grown) then
      LookupDropEldest(grown.slots);
      assert grown.slots[0] == c.slots[0];
      var kept := grown.slots[1..];
      assert forall i :: 0 <= i < |kept| ==> kept[i] == grown.slots[i + 1];
      Cache(kept)
    else grown
  }

  /** `LinkedHashMap.put` followed by the eviction hook. Replacing the entry of a
      present key moves it to the most recent end and evicts nothing; inserting a
      new key appends it and, when that overflows the capacity, evicts the eldest. */
  function StorePut<V>(c: Cache<V>, city: string, e: CachedWeatherData<V>): (r: Cache<V>)
    requires Wellformed(c) && IsLower(city)
    ensures Wellformed(r)
    ensures Lookup(r, city) == Some(e)
    ensures |r.slots| > 0 && Cities(r.slots)[|r.slots| - 1] == city
    ensures Lookup(c, city).Some? ==>
              && |r.slots| == |c.slots|
              && Cities(r.slots) == Erase(Cities(c.slots), city) + [city]
              && forall k :: k != city ==> Lookup(r, k) == Lookup(c, k)
    ensures Lookup(c, city).None? && |c.slots| < MaxCachedCities ==>
              && |r.slots| == |c.slots| + 1
              && Cities(r.slots) == Cities(c.slots) + [city]
              && forall k :: k != city ==> Lookup(r, k) == Lookup(c, k)
    ensures Lookup(c, city).None? && |c.slots| == MaxCachedCities ==>
              && |r.slots| == MaxCachedCities
              && Cities(r.slots) == Cities(c.slots)[1..] + [city]
              && Lookup(r, c.slots[0].city) == None
              && forall k :: k != city && k != c.slots[0].city ==> Lookup(r, k) == Lookup(c, k)
  {
    if Lookup(c, city).Some? then Replace(c, city, e) else Insert(c, city, e)
  }

  /** `LinkedHashMap.remove`: unlinks the key if present, otherwise changes nothing. */
  function StoreRemove<V>(c: Cache<V>, city: string): (r: Cache<V>)
    requires Wellformed(c)
    ensures Wellformed(r)
    ensures Lookup(r, city).None?
    ensures forall k :: k != city ==> Lookup(r, k) == Lookup(c, k)
    ensures Lookup(c, city).None? ==> r == c
    ensures Cities(r.slots) == Erase(Cities(c.slots), city)
  {
    var rest := Unlink(c.slots, city);
    UnlinkDistinct(c.slots, city);
    UnlinkRecency(c.slots, city);
    assert forall i :: 0 <= i < |rest| ==> rest[i] in c.slots;
    Cache(rest)
  }

  // ---------------------------------------------------------------------------
  // The WeatherCache operations

  /** What `getIfValid` returns (`None` for Java's `null`) and the cache after it. */
  datatype Read<V> = Read(value: Option<V>, cache: Cache<V>)

  /** The exclusive-access half of an expired read: look the key up again at
      clock reading `now` and remove it only if it is still there and still expired. */
  function Recheck<V>(c: Cache<V>, key: string, now: nat): (r: Cache<V>)
    requires Wellformed(c)
    ensures Wellformed(r)
    ensures forall k :: k != key ==> Lookup(r, k) == Lookup(c, k)
    ensures Lookup(r, key) ==
              if Lookup(c, key).Some? && !IsFresh(Lookup(c, key).value, now) then None
              else Lookup(c, key)
    ensures Lookup(c, key).None? ==> r == c
    ensures Lookup(c, key).Some? ==>
              Cities(r.slots) == if IsFresh(Lookup(c, key).value, now) then Erase(Cities(c.slots), key) + [key]
                                 else Erase(Cities(c.slots), key)
  {
    var second := AccessGet(c, key);
    match second.found
    case Some(e) =>
      if now - e.timestamp >= ValidityPeriodMs then
        EraseMoved(Cities(c.slots), key);
        StoreRemove(second.cache, key)
      else second.cache
    case None => second.cache
  }

  /** `getIfValid(cityName)`, with `now1` the clock reading of the first check and
      `now2` that of the re-check on the expired path. */
  function GetIfValid<V>(c: Cache<V>, cityName: string, now1: nat, now2: nat): (r: Read<V>)
    requires Wellformed(c)
    ensures Wellformed(r.cache)
    ensures var found := Lookup(c, ToLower(cityName));
              r.value.Some? <==> found.Some? && IsFresh(found.value, now1)
    ensures var found := Lookup(c, ToLower(cityName));
              r.value.Some? ==> r.value.value == found.value.data
    ensures forall k :: k != ToLower(cityName) ==> Lookup(r.cache, k) == Lookup(c, k)
    ensures var found := Lookup(c, ToLower(cityName));
              Lookup(r.cache, ToLower(cityName)) ==
                if found.Some? && !IsFresh(found.value, now1) && !IsFresh(found.value, now2) then None
                else found
    ensures var key := ToLower(cityName);
              r.value.Some? ==> Cities(r.cache.slots) == Erase(Cities(c.slots), key) + [key]
    ensures r.value.Some? ==> |r.cache.slots| == |c.slots|
    ensures var key := ToLower(cityName);
            var found := Lookup(c, key);
              found.Some? && !IsFresh(found.value, now1) ==>
                Cities(r.cache.slots) == if IsFresh(found.value, now2) then Erase(Cities(c.slots), key) + [key]
                                         else Erase(Cities(c.slots), key)
    ensures Lookup(c, ToLower(cityName)).None? ==> r.cache == c
  {
    var key := ToLower(cityName);
    var first := AccessGet(c, key);
    match first.found
    case Some(e) =>
      if now1 - e.timestamp < ValidityPeriodMs then Read(Some(e.data), first.cache)
      else
        EraseMoved(Cities(c.slots), key);
        Read(None, Recheck(first.cache, key, now2))
    case None => Read(None, first.cache)
  }

  /** A valid read of the most recently accessed key leaves the cache exactly as it was. */
  lemma {:induction false} HitOnNewestIsNoOp<V>(c: Cache<V>, cityName: string, now1: nat, now2: nat)
    requires Wellformed(c) && |c.slots| > 0 && c.slots[|c.slots| - 1].city == ToLower(cityName)
    requires IsFresh(c.slots[|c.slots| - 1].entry, now1)
    ensures Lookup(c, ToLower(cityName)) == Some(c.slots[|c.slots| - 1].entry)
    ensures GetIfValid(c, cityName, now1, now2).cache == c
  {
    UnlinkLast(c.slots, ToLower(cityName));
    AccessNewestIsNoOp(c, ToLower(cityName));
  }

  /** `put(cityName, data)`: the entry is created, and timestamped, at clock reading `now`. */
  function Put<V>(c: Cache<V>, cityName: string, data: V, now: nat): (r: Cache<V>)
    requires Wellformed(c)
    ensures Wellformed(r)
    ensures Lookup(r, ToLower(cityName)) == Some(CachedWeatherData(data, now))
    ensures Cities(r.slots)[|r.slots| - 1] == ToLower(cityName)
    ensures Lookup(c, ToLower(cityName)).Some? ==>
              && |r.slots| == |c.slots|
              && Cities(r.slots) == Erase(Cities(c.slots), ToLower(cityName)) + [ToLower(cityName)]
              && forall k :: k != ToLower(cityName) ==> Lookup(r, k) == Lookup(c, k)
    ensures Lookup(c, ToLower(cityName)).None? ==>
              forall k :: k != ToLower(cityName) && Lookup(r, k) != Lookup(c, k) ==>
                |c.slots| == MaxCachedCities && k == c.slots[0].city && Lookup(r, k).None?
  {
    StorePut(c, ToLower(cityName), CachedWeatherData(data, now))
  }

  /** `remove(cityName)`. */
  function Remove<V>(c: Cache<V>, cityName: string): (r: Cache<V>)
    requires Wellformed(c)
    ensures Wellformed(r)
    ensures Lookup(r, ToLower(cityName)).None?
    ensures forall k :: k != ToLower(cityName) ==> Lookup(r, k) == Lookup(c, k)
    ensures Lookup(c, ToLower(cityName)).None? ==> r == c
    ensures Cities(r.slots) == Erase(Cities(c.slots), ToLower(cityName))
  {
    StoreRemove(c, ToLower(cityName))
  }

  /** `getCityNames()`: a snapshot of the stored keys. */
  function CityNames<V>(c: Cache<V>): (r: set<string>)
    ensures forall k :: k in r <==> Lookup(c, k).Some?
    ensures Wellformed(c) ==> forall k :: k in r ==> IsLower(k)
  {
    CitiesMembership(c.slots);
    set k | k in Cities(c.slots)
  }

  // ---------------------------------------------------------------------------
  // Properties of the cache

  /** The keys kept after a run of insertions: the newest `MaxCachedCities` of them. */
  function Newest(xs: seq<string>): seq<string> {
    if |xs| <= MaxCachedCities then xs else xs[|xs| - MaxCachedCities..]
  }

  /** `put` of each name in turn, all at clock reading `now`. */
  function PutAll<V>(c: Cache<V>, cityNames: seq<string>, data: V, now: nat): (r: Cache<V>)
    requires Wellformed(c)
    ensures Wellformed(r)
    decreases |cityNames|
  {
    if |cityNames| == 0 then c else PutAll(Put(c, cityNames[0], data, now), cityNames[1..], data, now)
  }

  /** No name occurs twice. */
  predicate DistinctNames(xs: seq<string>) {
    forall i, j :: 0 <= i < j < |xs| ==> xs[i] != xs[j]
  }

  /** Keeping the newest entries of a long enough suffix is keeping the newest of the whole. */
  lemma NewestOfSuffix(s: seq<string>, t: seq<string>)
    requires |s| <= |t| && s == t[|t| - |s|..]
    requires |s| >= MaxCachedCities || |s| == |t|
    ensures Newest(s) == Newest(t)
  {
    if |s| > MaxCachedCities {
      assert s[|s| - MaxCachedCities..] == t[|t| - MaxCachedCities..];
    }
  }

  /** Trimming to the newest keys before appending more changes nothing in the end. */
  lemma NewestThenAppend(xs: seq<string>, ys: seq<string>)
    ensures Newest(Newest(xs) + ys) == Newest(xs + ys)
  {
    var t := xs + ys;
    var s := Newest(xs) + ys;
    if |xs| > MaxCachedCities {
      assert s == t[|t| - |s|..];
    } else {
      assert s == t;
    }
    NewestOfSuffix(s, t);
  }

  /** One insertion followed by the rest of the run keeps what the whole run keeps. */
  lemma NewestStep(before: seq<string>, after: seq<string>, cityNames: seq<string>)
    requires |cityNames| > 0 && after == Newest(before + [cityNames[0]])
    ensures Newest(after + cityNames[1..]) == Newest(before + cityNames)
  {
    assert before + cityNames == (before + [cityNames[0]]) + cityNames[1..];
    NewestThenAppend(before + [cityNames[0]], cityNames[1..]);
  }

  /** Inserting a key that is not in the cache keeps the newest keys of the recency order
      extended by the new key. */
  lemma PutFreshRecency<V>(c: Cache<V>, city: string, data: V, now: nat)
    requires Wellformed(c) && IsLower(city) && city !in Cities(c.slots)
    ensures Cities(Put(c, city, data, now).slots) == Newest(Cities(c.slots) + [city])
  {
    ToLowerFixesLower(city);
    CitiesMembership(c.slots);
    var xs := Cities(c.slots) + [city];
    if |c.slots| == MaxCachedCities {
      assert xs[|xs| - MaxCachedCities..] == Cities(c.slots)[1..] + [city];
    }
  }

  /** What `Newest` keeps is taken from its argument. */
  lemma NewestSubset(xs: seq<string>)
    ensures forall y :: y in Newest(xs) ==> y in xs
  {
    if |xs| > MaxCachedCities {
      forall y | y in Newest(xs) ensures y in xs {
        var i :| 0 <= i < |Newest(xs)| && Newest(xs)[i] == y;
        assert xs[i + |xs| - MaxCachedCities] == y;
      }
    }
  }

  /** `cityNames` are distinct lower-case names, none of them among `present`. */
  predicate FreshRun(present: seq<string>, cityNames: seq<string>) {
    && DistinctNames(cityNames)
    && forall i :: 0 <= i < |cityNames| ==> IsLower(cityNames[i]) && cityNames[i] !in present
  }

  /** The names after the first of a fresh run are a fresh run for the cache after
      the first insertion. */
  lemma RunTailIsFresh(before: seq<string>, after: seq<string>, cityNames: seq<string>)
    requires |cityNames| > 0 && FreshRun(before, cityNames)
    requires after == Newest(before + [cityNames[0]])
    ensures FreshRun(after, cityNames[1..])
  {
    var rest := cityNames[1..];
    NewestSubset(before + [cityNames[0]]);
    forall i | 0 <= i < |rest| ensures IsLower(rest[i]) && rest[i] !in after {
      assert rest[i] == cityNames[i + 1];
    }
    forall i, j | 0 <= i < j < |rest| ensures rest[i] != rest[j] {
      assert rest[i] == cityNames[i + 1] && rest[j] == cityNames[j + 1];
    }
  }

  /** Insertions of distinct new keys, with no reads in between, leave exactly the
      newest `MaxCachedCities` keys, in insertion order: each overflow evicted the
      least recently accessed key. */
  lemma {:induction false} PutAllKeepsNewest<V>(c: Cache<V>, cityNames: seq<string>, data: V, now: nat)
    requires Wellformed(c) && FreshRun(Cities(c.slots), cityNames)
    ensures Cities(PutAll(c, cityNames, data, now).slots) == Newest(Cities(c.slots) + cityNames)
    decreases |cityNames|
  {
    if |cityNames| == 0 {
      assert Cities(c.slots) + cityNames == Cities(c.slots);
    } else {
      var first := cityNames[0];
      var rest := cityNames[1..];
      var c1 := Put(c, first, data, now);
      var xs := Cities(c.slots) + [first];
      PutFreshRecency(c, first, data, now);
      RunTailIsFresh(Cities(c.slots), Cities(c1.slots), cityNames);
      PutAllKeepsNewest(c1, rest, data, now);
      NewestStep(Cities(c.slots), Cities(c1.slots), cityNames);
    }
  }

  /** One insertion past the capacity: eleven distinct lower-case names put in order
      into an empty cache, with no reads, leave the last ten, oldest first, and the
      first is no longer listed. */
  lemma OverflowEvictsFirst<V>(names: seq<string>, data: V, now: nat)
    requires |names| == MaxCachedCities + 1 && FreshRun([], names)
    ensures var r := PutAll(Empty(), names, data, now);
            Cities(r.slots) == names[1..] && names[0] !in CityNames(r)
  {
    var e := Empty<V>();
    assert Cities(e.slots) == [];
    assert Cities(e.slots) + names == names;
    PutAllKeepsNewest(e, names, data, now);
    var r := PutAll(e, names, data, now);
    assert Cities(r.slots) == names[1..];
    assert names[0] !in names[1..] by {
      forall i | 0 <= i < |names[1..]| ensures names[1..][i] != names[0] {
        assert names[1..][i] == names[i + 1];
      }
    }
    CitiesMembership(r.slots);
  }

  /** The keys `k1` to `k11`. */
  function ElevenNames(): (names: seq<string>)
    ensures |names| == MaxCachedCities + 1 && FreshRun([], names)
  {
    var names := ["k1", "k2", "k3", "k4", "k5", "k6", "k7", "k8", "k9", "k10", "k11"];
    assert forall i :: 0 <= i < |names| ==> IsLower(names[i]);
    names
  }

  /** `k1` to `k11` put into an empty cache, with no reads: `k2` to `k11` remain and
      `k1` has been evicted. */
  lemma ElevenPutsEvictTheFirst<V>(data: V, now: nat)
    ensures var r := PutAll(Empty(), ElevenNames(), data, now);
            && Cities(r.slots) == ["k2", "k3", "k4", "k5", "k6", "k7", "k8", "k9", "k10", "k11"]
            && "k1" !in CityNames(r)
  {
    var names := ElevenNames();
    OverflowEvictsFirst(names, data, now);
  }

  /** The first `put` into a new cache leaves exactly its lower-cased key. */
  lemma PutIntoEmpty<V>(cityName: string, data: V, now: nat)
    ensures CityNames(Put(Empty(), cityName, data, now)) == {ToLower(cityName)}
  {
    var r := Put(Empty<V>(), cityName, data, now);
    assert Cities(Empty<V>().slots) == [];
    assert Cities(r.slots) == [ToLower(cityName)];
    CitiesMembership(r.slots);
  }

  /** City names are compared case-insensitively: a value put under one spelling is
      read back under any spelling with the same fold, at the same clock reading. */
  lemma CaseInsensitiveKeys<V>(c: Cache<V>, putName: string, getName: string, data: V, now: nat, now2: nat)
    requires Wellformed(c) && ToLower(putName) == ToLower(getName)
    ensures GetIfValid(Put(c, putName, data, now), getName, now, now2).value == Some(data)
  {
  }

  /** The example spelling pair: `Tokyo` and `TOKYO` name the same entry. */
  lemma TokyoIsTOKYO<V>(c: Cache<V>, data: V, now: nat)
    requires Wellformed(c)
    ensures GetIfValid(Put(c, "Tokyo", data, now), "TOKYO", now, now).value == Some(data)
  {
    TokyoFolds();
    CaseInsensitiveKeys(c, "Tokyo", "TOKYO", data, now, now);
  }

  /** With a clock that does not run backwards, an entry found expired by the first
      check is removed: the read returns nothing, the key is no longer listed, and
      every other entry is as it was. */
  lemma ExpiredReadRemoves<V>(c: Cache<V>, cityName: string, now1: nat, now2: nat)
    requires Wellformed(c) && now1 <= now2
    requires Lookup(c, ToLower(cityName)).Some? && !IsFresh(Lookup(c, ToLower(cityName)).value, now1)
    ensures var r := GetIfValid(c, cityName, now1, now2);
            && r.value.None?
            && ToLower(cityName) !in CityNames(r.cache)
            && forall k :: k != ToLower(cityName) ==> Lookup(r.cache, k) == Lookup(c, k)
  {
  }

  /** Why the re-check exists: if the entry is refreshed between the first check and
      the exclusive re-check, the re-check finds it valid and keeps it. */
  lemma RecheckSparesRefreshedEntry<V>(c: Cache<V>, key: string, data: V, storedAt: nat, now2: nat)
    requires Wellformed(c) && IsLower(key) && now2 - storedAt < ValidityPeriodMs
    ensures Lookup(Recheck(Put(c, key, data, storedAt), key, now2), key) == Some(CachedWeatherData(data, storedAt))
  {
    ToLowerFixesLower(key);
  }

  /** A read counts as an access: after a valid hit on a full cache, inserting a new
      key evicts some other entry and keeps the one just read. */
  lemma ReadHitDefersEviction<V>(c: Cache<V>, cityName: string, now1: nat, now2: nat,
                                 newName: string, data: V, now: nat)
    requires Wellformed(c) && |c.slots| == MaxCachedCities
    requires GetIfValid(c, cityName, now1, now2).value.Some?
    requires Lookup(c, ToLower(newName)).None?
    ensures var after := Put(GetIfValid(c, cityName, now1, now2).cache, newName, data, now);
            Lookup(after, ToLower(cityName)) == Lookup(c, ToLower(cityName))
  {
    var key := ToLower(cityName);
    var d := GetIfValid(c, cityName, now1, now2).cache;
    assert Lookup(d, key) == Lookup(c, key);
    assert |d.slots| == MaxCachedCities;
    assert Cities(d.slots) == Erase(Cities(c.slots), key) + [key];
    assert d.slots[|d.slots| - 1].city == key;
    assert d.slots[0].city != key;
    assert Lookup(d, ToLower(newName)).None?;
  }

  /** `remove` of an absent key changes nothing, so a second `remove` is a no-op. */
  lemma RemoveIdempotent<V>(c: Cache<V>, cityName: string)
    requires Wellformed(c)
    ensures Remove(Remove(c, cityName), cityName) == Remove(c, cityName)
    ensures Lookup(c, ToLower(cityName)).None? ==> Remove(c, cityName) == c
  {
  }

  /** Putting a key the cache already lists, as a refresh cycle does, lands on that
      same entry: no key is added or evicted and the size stays the same. */
  lemma RePutSameEntry<V>(c: Cache<V>, city: string, data: V, now: nat)
    requires Wellformed(c) && city in CityNames(c)
    ensures var r := Put(c, city, data, now);
            && |r.slots| == |c.slots|
            && CityNames(r) == CityNames(c)
            && Lookup(r, city) == Some(CachedWeatherData(data, now))
            && Cities(r.slots) == Erase(Cities(c.slots), city) + [city]
            && forall k :: k != city ==> Lookup(r, k) == Lookup(c, k)
  {
    CitiesMembership(c.slots);
    var i :| 0 <= i < |c.slots| && c.slots[i].city == city;
    ToLowerFixesLower(city);
    var r := Put(c, city, data, now);
    assert forall k :: k in CityNames(r) <==> k in CityNames(c);
  }
}

=== FILE: weather_sdk.dfy ===
/** The SDK façade and the process-wide registry of instances keyed by API key.

    Java objects live on a heap: a destroyed instance still exists, and still works,
    for whoever holds a reference to it. The model keeps that heap as `objects`
    (instance identity to instance state) next to `instances`, the registry map
    from API key to instance. */
module WeatherSdk {
  import opened Results
  import opened JavaStrings
  import opened WeatherCache
  import opened WeatherApi
  import opened PollingManager

  /** How an instance keeps its data fresh. */
  datatype Mode = OnDemand | Polling

  /** The configuration an instance is built from; both fields are non-null. */
  datatype Config = Config(apiKey: string, mode: Mode)

  /** What `getWeather` can fail with: the argument check, or the fetch failure,
      passed on unchanged. */
  datatype SdkError = InvalidCityName | Api(error: FetchError)

  /** Identity of an instance object. */
  type InstanceId = nat

  /** An instance: its API key, its mode, its cache and, in polling mode, its poller. */
  datatype Sdk<V> = Sdk(apiKey: string, mode: Mode, cache: Cache<V>, poller: Option<Poller>)

  /** What every instance satisfies: a well-formed cache, and a poller exactly in
      polling mode. */
  predicate SdkInvariant<V>(sdk: Sdk<V>) {
    && Wellformed(sdk.cache)
    && (sdk.poller.Some? <==> sdk.mode == Polling)
    && (sdk.poller.Some? ==> PollerInvariant(sdk.poller.value))
  }

  /** The instance has a poller whose schedule is active. */
  predicate IsPolling<V>(sdk: Sdk<V>) {
    sdk.poller.Some? && sdk.poller.value.isRunning
  }

  /** The private constructor: an empty cache, and a started poller only in polling mode. */
  function NewSdk<V>(config: Config): (sdk: Sdk<V>)
    ensures SdkInvariant(sdk)
    ensures sdk.apiKey == config.apiKey && sdk.mode == config.mode && sdk.cache == Empty()
    ensures sdk.poller.Some? <==> config.mode == Polling
    ensures IsPolling(sdk) <==> config.mode == Polling
  {
    var poller := if config.mode == Polling then Some(Start(NewPoller()).value) else None;
    Sdk(config.apiKey, config.mode, Empty(), poller)
  }

  // ---------------------------------------------------------------------------
  // getWeather

  /** `cityName == null || cityName.trim().isEmpty()`, with `None` for `null`. */
  predicate IsNullOrBlank(cityName: Option<string>) {
    cityName.None? || |Trim(cityName.value)| == 0
  }

  /** The cache holds a valid entry for `cityName` at clock reading `now`. */
  predicate IsHit<V>(c: Cache<V>, cityName: string, now: nat) {
    var found := Lookup(c, ToLower(cityName));
    found.Some? && IsFresh(found.value, now)
  }

  /** What `getWeather` returns or throws, the instance afterwards, and the city name
      handed to the fetch, if a fetch happened. */
  datatype Reply<V> = Reply(result: Result<V, SdkError>, sdk: Sdk<V>, fetchedFor: Option<string>)

  /** The miss path: fetch and parse, and only on success put the value and return it. */
  function FetchOnMiss<V>(sdk: Sdk<V>, cityName: string, fetch: Fetch<V>, storedAt: nat): (r: Reply<V>)
    requires SdkInvariant(sdk)
    ensures SdkInvariant(r.sdk) && r.fetchedFor == Some(cityName)
    ensures r.sdk.apiKey == sdk.apiKey && r.sdk.mode == sdk.mode && r.sdk.poller == sdk.poller
    ensures fetch(cityName).Success? ==>
              && r.result == Success(fetch(cityName).value)
              && Lookup(r.sdk.cache, ToLower(cityName)) == Some(CachedWeatherData(fetch(cityName).value, storedAt))
              && r.sdk.cache == Put(sdk.cache, cityName, fetch(cityName).value, storedAt)
    ensures fetch(cityName).Failure? ==> r.result == Failure(Api(fetch(cityName).error)) && r.sdk == sdk
  {
    match fetch(cityName)
    case Success(data) => Reply(Success(data), sdk.(cache := Put(sdk.cache, cityName, data, storedAt)), Some(cityName))
    case Failure(e) => Reply(Failure(Api(e)), sdk, Some(cityName))
  }

  /** `getWeather(cityName)`. `readAt` and `recheckAt` are the clock readings of the
      cache read and of its re-check, `storedAt` the one taken when a fetched value
      is put. */
  function GetWeather<V>(sdk: Sdk<V>, cityName: Option<string>, fetch: Fetch<V>,
                         readAt: nat, recheckAt: nat, storedAt: nat): (r: Reply<V>)
    requires SdkInvariant(sdk)
    ensures SdkInvariant(r.sdk)
    ensures r.sdk.apiKey == sdk.apiKey && r.sdk.mode == sdk.mode && r.sdk.poller == sdk.poller
    ensures IsNullOrBlank(cityName) ==> r == Reply(Failure(InvalidCityName), sdk, None)
    ensures !IsNullOrBlank(cityName) && IsHit(sdk.cache, cityName.value, readAt) ==>
              && r.result == Success(Lookup(sdk.cache, ToLower(cityName.value)).value.data)
              && r.fetchedFor.None?
              && (forall k :: Lookup(r.sdk.cache, k) == Lookup(sdk.cache, k))
              && r.sdk.cache == GetIfValid(sdk.cache, cityName.value, readAt, recheckAt).cache
              && Cities(r.sdk.cache.slots) == Erase(Cities(sdk.cache.slots), ToLower(cityName.value)) + [ToLower(cityName.value)]
    ensures !IsNullOrBlank(cityName) && !IsHit(sdk.cache, cityName.value, readAt) ==>
              var city := cityName.value;
              && r.fetchedFor == Some(city)
              && (fetch(city).Success? ==>
                    && r.result == Success(fetch(city).value)
                    && Lookup(r.sdk.cache, ToLower(city)) == Some(CachedWeatherData(fetch(city).value, storedAt))
                    && r.sdk.cache == Put(GetIfValid(sdk.cache, city, readAt, recheckAt).cache, city, fetch(city).value, storedAt))
              && (fetch(city).Failure? ==>
                    && r.result == Failure(Api(fetch(city).error))
                    && r.sdk.cache == GetIfValid(sdk.cache, city, readAt, recheckAt).cache)
              && (fetch(city).Failure? && Lookup(sdk.cache, ToLower(city)).None? ==> r.sdk == sdk)
  {
    if IsNullOrBlank(cityName) then Reply(Failure(InvalidCityName), sdk, None)
    else
      var city := cityName.value;
      var read := GetIfValid(sdk.cache, city, readAt, recheckAt);
      var afterRead := sdk.(cache := read.cache);
      if read.value.Some? then Reply(Success(read.value.value), afterRead, None)
      else if sdk.mode == OnDemand then FetchOnMiss(afterRead, city, fetch, storedAt)
      else
        // polling mode falls back to the very same fetch on a miss
        FetchOnMiss(afterRead, city, fetch, storedAt)
  }

  /** The miss path does not depend on the mode: two instances with the same cache
      give the same answer and end with the same cache. */
  lemma GetWeatherIgnoresMode<V>(a: Sdk<V>, b: Sdk<V>, cityName: Option<string>, fetch: Fetch<V>,
                                 readAt: nat, recheckAt: nat, storedAt: nat)
    requires SdkInvariant(a) && SdkInvariant(b) && a.cache == b.cache
    ensures GetWeather(a, cityName, fetch, readAt, recheckAt, storedAt).result
            == GetWeather(b, cityName, fetch, readAt, recheckAt, storedAt).result
    ensures GetWeather(a, cityName, fetch, readAt, recheckAt, storedAt).sdk.cache
            == GetWeather(b, cityName, fetch, readAt, recheckAt, storedAt).sdk.cache
  {
    if !IsNullOrBlank(cityName) {
      var city := cityName.value;
      var read := GetIfValid(a.cache, city, readAt, recheckAt);
      if read.value.None? {
        var ra := FetchOnMiss(a.(cache := read.cache), city, fetch, storedAt);
        var rb := FetchOnMiss(b.(cache := read.cache), city, fetch, storedAt);
        assert ra.result == rb.result && ra.sdk.cache == rb.sdk.cache;
      }
    }
  }

  /** A blank name is one made only of characters `trim` strips, so those are
      exactly the names rejected before the cache is consulted. */
  lemma BlankNamesRejected<V>(sdk: Sdk<V>, cityName: string, fetch: Fetch<V>,
                              readAt: nat, recheckAt: nat, storedAt: nat)
    requires SdkInvariant(sdk)
    ensures GetWeather(sdk, Some(cityName), fetch, readAt, recheckAt, storedAt).result == Failure(InvalidCityName)
            <==> IsBlank(cityName)
  {
    TrimEmptyIffBlank(cityName);
  }

  /** A value fetched on a miss is served from the cache, without a fetch, by any
      later request for the same city within the validity period of its store time.
      The fetched city is already the most recent one, so that hit leaves the
      instance exactly as the miss left it. */
  lemma MissThenHit<V>(sdk: Sdk<V>, cityName: string, fetch: Fetch<V>, later: Fetch<V>,
                       readAt: nat, recheckAt: nat, storedAt: nat,
                       readAt2: nat, recheckAt2: nat, storedAt2: nat)
    requires SdkInvariant(sdk) && !IsBlank(cityName)
    requires !IsHit(sdk.cache, cityName, readAt) && fetch(cityName).Success?
    requires readAt2 - storedAt < ValidityPeriodMs
    ensures var first := GetWeather(sdk, Some(cityName), fetch, readAt, recheckAt, storedAt);
            var second := GetWeather(first.sdk, Some(cityName), later, readAt2, recheckAt2, storedAt2);
            && second.result == first.result == Success(fetch(cityName).value)
            && second.fetchedFor.None?
            && second.sdk == first.sdk
  {
    MissStoresNewest(sdk, cityName, fetch, readAt, recheckAt, storedAt);
    var first := GetWeather(sdk, Some(cityName), fetch, readAt, recheckAt, storedAt);
    HitOnNewestKeepsInstance(first.sdk, cityName, later, readAt2, recheckAt2, storedAt2);
  }

  /** A miss whose fetch succeeds leaves the fetched value, stamped with the store
      time, in the most recently accessed slot. */
  lemma {:induction false} MissStoresNewest<V>(sdk: Sdk<V>, cityName: string, fetch: Fetch<V>,
                                               readAt: nat, recheckAt: nat, storedAt: nat)
    requires SdkInvariant(sdk) && !IsBlank(cityName)
    requires !IsHit(sdk.cache, cityName, readAt) && fetch(cityName).Success?
    ensures var first := GetWeather(sdk, Some(cityName), fetch, readAt, recheckAt, storedAt);
            var c := first.sdk.cache;
            && SdkInvariant(first.sdk)
            && first.result == Success(fetch(cityName).value)
            && |c.slots| > 0
            && c.slots[|c.slots| - 1] == Slot(ToLower(cityName), CachedWeatherData(fetch(cityName).value, storedAt))
  {
    TrimEmptyIffBlank(cityName);
    var first := GetWeather(sdk, Some(cityName), fetch, readAt, recheckAt, storedAt);
    var c := first.sdk.cache;
    assert c == Put(GetIfValid(sdk.cache, cityName, readAt, recheckAt).cache, cityName, fetch(cityName).value, storedAt);
    assert Cities(c.slots)[|c.slots| - 1] == ToLower(cityName);
    UnlinkLast(c.slots, ToLower(cityName));
  }

  /** A valid hit on the city the instance accessed last changes nothing at all. */
  lemma {:induction false} HitOnNewestKeepsInstance<V>(sdk: Sdk<V>, cityName: string, fetch: Fetch<V>,
                                                       readAt: nat, recheckAt: nat, storedAt: nat)
    requires SdkInvariant(sdk) && !IsBlank(cityName)
    requires var c := sdk.cache;
             |c.slots| > 0 && c.slots[|c.slots| - 1].city == ToLower(cityName)
             && IsFresh(c.slots[|c.slots| - 1].entry, readAt)
    ensures var r := GetWeather(sdk, Some(cityName), fetch, readAt, recheckAt, storedAt);
            && r.result == Success(sdk.cache.slots[|sdk.cache.slots| - 1].entry.data)
            && r.fetchedFor.None?
            && r.sdk == sdk
  {
    var c := sdk.cache;
    HitOnNewestIsNoOp(c, cityName, readAt, recheckAt);
    assert IsHit(c, cityName, readAt);
    TrimEmptyIffBlank(cityName);
    var r := GetWeather(sdk, Some(cityName), fetch, readAt, recheckAt, storedAt);
    assert r.sdk.cache == c;
    assert r.sdk == Sdk(sdk.apiKey, sdk.mode, c, sdk.poller);
  }

  // ---------------------------------------------------------------------------
  // The registry

  /** The registry map from API key to instance, the heap of instance objects, and
      the next unused identity. */
  datatype Registry<V> = Registry(instances: map<string, InstanceId>, objects: map<InstanceId, Sdk<V>>, nextId: InstanceId)

  /** The registry before any `getInstance`. */
  function EmptyRegistry<V>(): (w: Registry<V>)
    ensures w.instances == map[] && w.objects == map[]
    ensures Consistent(w) && PollersMatchRegistry(w)
  {
    Registry(map[], map[], 0)
  }

  /** The instance `id` is the one registered under its own API key. */
  predicate Registered<V>(w: Registry<V>, id: InstanceId)
    requires id in w.objects
  {
    var key := w.objects[id].apiKey;
    key in w.instances && w.instances[key] == id
  }

  /** Every registered key maps to an instance with that key; every object has an
      identity below `nextId` and satisfies the instance invariant. */
  predicate Consistent<V>(w: Registry<V>) {
    && (forall k :: k in w.instances ==> w.instances[k] in w.objects && w.objects[w.instances[k]].apiKey == k)
    && (forall id :: id in w.objects ==> id < w.nextId && SdkInvariant(w.objects[id]))
  }

  /** A poller runs exactly for the registered polling-mode instances: no instance
      that the registry has let go of keeps polling. */
  predicate PollersMatchRegistry<V>(w: Registry<V>) {
    forall id :: id in w.objects ==>
      (IsPolling(w.objects[id]) <==> Registered(w, id) && w.objects[id].mode == Polling)
  }

  /** No instance is registered under two keys. */
  lemma OneInstancePerKey<V>(w: Registry<V>, k1: string, k2: string)
    requires Consistent(w) && k1 in w.instances && k2 in w.instances
    requires w.instances[k1] == w.instances[k2]
    ensures k1 == k2
  {
  }

  /** What `getInstance` returns: the registry afterwards and the instance. */
  datatype Handle<V> = Handle(registry: Registry<V>, id: InstanceId)

  /** `getInstance(config)`: insert-if-absent on the API key. An existing instance is
      returned whatever mode the new configuration asks for. */
  function GetInstance<V>(w: Registry<V>, config: Config): (r: Handle<V>)
    requires Consistent(w)
    ensures Consistent(r.registry)
    ensures PollersMatchRegistry(w) ==> PollersMatchRegistry(r.registry)
    ensures config.apiKey in r.registry.instances && r.registry.instances[config.apiKey] == r.id
    ensures r.id in r.registry.objects && Registered(r.registry, r.id)
    ensures config.apiKey in w.instances ==> r.registry == w && r.id == w.instances[config.apiKey]
    ensures config.apiKey !in w.instances ==>
              && r.id !in w.objects
              && r.registry.objects[r.id] == NewSdk(config)
              && r.registry.objects.Keys == w.objects.Keys + {r.id}
              && r.registry.nextId == w.nextId + 1
              && r.registry.instances.Keys == w.instances.Keys + {config.apiKey}
              && (forall k :: k in w.instances ==> r.registry.instances[k] == w.instances[k])
              && (forall id :: id in w.objects ==> id in r.registry.objects && r.registry.objects[id] == w.objects[id])
  {
    var key := config.apiKey;
    if key in w.instances then Handle(w, w.instances[key])
    else
      var id := w.nextId;
      Handle(Registry(w.instances[key := id], w.objects[id := NewSdk(config)], id + 1), id)
  }

  /** Asking twice for the same API key yields the same instance and creates nothing
      the second time. */
  lemma GetInstanceIdempotent<V>(w: Registry<V>, first: Config, second: Config)
    requires Consistent(w) && first.apiKey == second.apiKey
    ensures var h := GetInstance(w, first);
            GetInstance(h.registry, second) == h
  {
  }

  /** What `destroy` reports: it removed the registration, or found none and only
      logged a warning. */
  datatype DestroyOutcome = Destroyed | NotRegistered

  /** The registry after `destroy` and what it reported. */
  datatype Teardown<V> = Teardown(registry: Registry<V>, outcome: DestroyOutcome)

  /** Stops the instance's own poller, if it has one. */
  function StopPoller<V>(sdk: Sdk<V>): (r: Sdk<V>)
    requires SdkInvariant(sdk)
    ensures SdkInvariant(r) && !IsPolling(r)
    ensures r.apiKey == sdk.apiKey && r.mode == sdk.mode && r.cache == sdk.cache
  {
    match sdk.poller
    case Some(p) => sdk.(poller := Some(Stop(p)))
    case None => sdk
  }

  /** `destroy()` as written: remove whatever the registry holds under this
      instance's API key and, if anything was removed, stop this instance's poller. */
  function DestroyAsWritten<V>(w: Registry<V>, id: InstanceId): (r: Teardown<V>)
    requires Consistent(w) && id in w.objects
    ensures Consistent(r.registry)
    ensures w.objects[id].apiKey !in r.registry.instances
    ensures r.outcome == Destroyed <==> w.objects[id].apiKey in w.instances
    ensures r.outcome == Destroyed ==>
              && r.registry.instances == w.instances - {w.objects[id].apiKey}
              && id in r.registry.objects && !IsPolling(r.registry.objects[id])
              && r.registry.objects[id] == StopPoller(w.objects[id])
              && r.registry.objects.Keys == w.objects.Keys
              && r.registry.nextId == w.nextId
    ensures r.outcome == NotRegistered ==> r.registry == w
    ensures forall other :: other in w.objects && other != id ==>
              other in r.registry.objects && r.registry.objects[other] == w.objects[other]
  {
    var sdk := w.objects[id];
    if sdk.apiKey in w.instances then
      Teardown(Registry(w.instances - {sdk.apiKey}, w.objects[id := StopPoller(sdk)], w.nextId), Destroyed)
    else Teardown(w, NotRegistered)
  }

  /** `destroy()` as intended: remove the registration only if it is this instance's,
      and then stop this instance's poller; otherwise report and change nothing. */
  function Destroy<V>(w: Registry<V>, id: InstanceId): (r: Teardown<V>)
    requires Consistent(w) && id in w.objects
    ensures Consistent(r.registry)
    ensures PollersMatchRegistry(w) ==> PollersMatchRegistry(r.registry)
    ensures id in r.registry.objects && !Registered(r.registry, id)
    ensures r.outcome == Destroyed <==> Registered(w, id)
    ensures r.outcome == Destroyed ==>
              && r.registry.instances == w.instances - {w.objects[id].apiKey}
              && !IsPolling(r.registry.objects[id])
              && r.registry.objects[id] == StopPoller(w.objects[id])
              && r.registry.objects.Keys == w.objects.Keys
              && r.registry.nextId == w.nextId
    ensures r.outcome == NotRegistered ==> r.registry == w
    ensures forall other :: other in w.objects && other != id ==>
              && other in r.registry.objects
              && r.registry.objects[other] == w.objects[other]
              && (Registered(r.registry, other) <==> Registered(w, other))
  {
    var sdk := w.objects[id];
    if Registered(w, id) then
      Teardown(Registry(w.instances - {sdk.apiKey}, w.objects[id := StopPoller(sdk)], w.nextId), Destroyed)
    else Teardown(w, NotRegistered)
  }

  /** A second `destroy` finds nothing, reports it, and changes nothing. */
  lemma DestroyTwiceIsNoOp<V>(w: Registry<V>, id: InstanceId)
    requires Consistent(w) && id in w.objects
    ensures var once := Destroy(w, id).registry;
            Destroy(once, id) == Teardown(once, NotRegistered)
  {
  }

  /** The two versions of `destroy` differ only on a stale instance: one whose key has
      meanwhile been registered to another instance. */
  lemma DestroyDiffersOnlyWhenStale<V>(w: Registry<V>, id: InstanceId)
    requires Consistent(w) && id in w.objects
    requires Registered(w, id) || w.objects[id].apiKey !in w.instances
    ensures Destroy(w, id) == DestroyAsWritten(w, id)
  {
  }

  /** The defect of `destroy` as written. A polling instance `a` is destroyed; a new
      polling instance `b` is created for the same API key; then `a.destroy()` is
      called again. It unregisters `b` and stops only `a`'s poller, so `b`'s own
      `destroy()` finds nothing to remove and `b` polls for ever. */
  lemma StaleDestroyLeaksPoller<V>()
    ensures var cfg := Config("key", Polling);
            var a := GetInstance(EmptyRegistry<V>(), cfg);
            var w1 := DestroyAsWritten(a.registry, a.id).registry;
            var b := GetInstance(w1, cfg);
            var w2 := DestroyAsWritten(b.registry, a.id).registry;
            var w3 := DestroyAsWritten(w2, b.id);
            && b.id != a.id
            && w3.outcome == NotRegistered
            && b.id in w3.registry.objects
            && IsPolling(w3.registry.objects[b.id])
            && !PollersMatchRegistry(w3.registry)
  {
  }

  /** The defect in general: when the key of a stale instance `a` is registered to
      another instance `b`, `destroy()` on `a` as written unregisters `b` but leaves
      it as it was, so `b`'s own `destroy()` then finds nothing, and a polling `b`
      keeps a poller that no registration accounts for. */
  lemma StaleDestroyOrphansSuccessor<V>(w: Registry<V>, a: InstanceId)
    requires Consistent(w) && a in w.objects && !Registered(w, a)
    requires w.objects[a].apiKey in w.instances
    ensures var b := w.instances[w.objects[a].apiKey];
            var w1 := DestroyAsWritten(w, a).registry;
            && b != a && b in w1.objects && w1.objects[b] == w.objects[b]
            && !Registered(w1, b)
            && DestroyAsWritten(w1, b) == Teardown(w1, NotRegistered)
            && (PollersMatchRegistry(w) && w.objects[b].mode == Polling ==>
                  IsPolling(w1.objects[b]) && !PollersMatchRegistry(w1))
  {
    var b := w.instances[w.objects[a].apiKey];
    assert Registered(w, b);
  }

  /** The same sequence with the intended `destroy`: the stale call reports and
      changes nothing, and `b`'s own `destroy()` stops `b`'s poller. */
  lemma StaleDestroyIsHarmless<V>()
    ensures var cfg := Config("key", Polling);
            var a := GetInstance(EmptyRegistry<V>(), cfg);
            var w1 := Destroy(a.registry, a.id).registry;
            var b := GetInstance(w1, cfg);
            var stale := Destroy(b.registry, a.id);
            var w3 := Destroy(stale.registry, b.id);
            && stale.outcome == NotRegistered
            && w3.outcome == Destroyed
            && !IsPolling(w3.registry.objects[b.id])
            && PollersMatchRegistry(w3.registry)
  {
  }

  // ---------------------------------------------------------------------------
  // The scheduled refresh

  /** One firing of the schedule on an instance: the refresh cycle runs on its cache
      only while its poller is running. */
  function ScheduledCycle<V>(sdk: Sdk<V>, order: seq<string>, fetch: Fetch<V>, now: nat): (r: Sdk<V>)
    requires SdkInvariant(sdk) && Enumerates(order, CityNames(sdk.cache))
    ensures SdkInvariant(r)
    ensures r.apiKey == sdk.apiKey && r.mode == sdk.mode && r.poller == sdk.poller
    ensures !IsPolling(sdk) ==> r == sdk
    ensures IsPolling(sdk) ==> r.cache == PollAllCities(sdk.cache, order, fetch, now).cache
  {
    if IsPolling(sdk) then sdk.(cache := PollAllCities(sdk.cache, order, fetch, now).cache) else sdk
  }

  /** A new polling instance that served a city on a miss is polling and caches
      exactly that city's lower-cased key. */
  lemma PollingInstanceCachesCity<V>(apiKey: string, cityName: string, data: V, fetch: Fetch<V>, now: nat)
    requires !IsBlank(cityName) && fetch(cityName) == Success(data)
    ensures var got := GetWeather(NewSdk<V>(Config(apiKey, Polling)), Some(cityName), fetch, now, now, now);
            && IsPolling(got.sdk)
            && CityNames(got.sdk.cache) == {ToLower(cityName)}
            && got.result == Success(data)
  {
    var sdk := NewSdk<V>(Config(apiKey, Polling));
    TrimEmptyIffBlank(cityName);
    assert GetIfValid(sdk.cache, cityName, now, now).cache == Empty();
    PutIntoEmpty<V>(cityName, data, now);
  }

  /** With no client call, one scheduled cycle on a polling instance holding a
      single city replaces its entry with the freshly fetched value, stamped with
      the cycle's clock reading. */
  lemma PollingRefreshesWithoutClient<V>(sdk: Sdk<V>, key: string, fetch: Fetch<V>, now: nat)
    requires SdkInvariant(sdk) && IsPolling(sdk) && CityNames(sdk.cache) == {key}
    requires fetch(key).Success?
    ensures Lookup(ScheduledCycle(sdk, [key], fetch, now).cache, key)
            == Some(CachedWeatherData(fetch(key).value, now))
  {
  }
}
